=== FILE: README.md ===
# E-paper clock: refresh scheduler, layout and text

This project models the logic of the firmware of an ESP32 e-paper clock
(`src/main.cpp`). The clock reads local time from a DS3231 real-time clock
once per poll and repaints a 4.2" bilevel panel. The modelled logic is the
part of the firmware that is not hardware glue:

- **Pixels** (`pixels.dfy`): the C integer types the firmware stores values
  in (`uint8_t`, `uint16_t`, `int16_t`, `uint32_t`), the conversions between
  them with their wrap-around, C's truncating division, and the 8-pixel
  alignment helpers `align8` and `ceil8`.
- **Text** (`text.dfy`): `weekdayName`, `monthName`, the `"%02d:%02d"` time
  string printed into a 6-byte buffer, and the date line
  `"<weekday>, <month> <day> <year>"`. Each string has a parser beside it,
  and round-trip lemmas show that the text carries exactly the fields it was
  built from.
- **Layout** (`layout.dfy`): the geometry of `computeRects`. The glyph
  metrics of the two sample strings are parameters. The function computes
  the time cursor, and the time and date windows: each text box is padded
  by 10 pixels, negative x/y are clamped to 0, and only the time window is
  aligned to 8 pixels. The lemmas prove alignment, padding, centring, and
  that the time window covers the text box measured for the sample "23:59".
  `drawTimePartial` prints the live time with its own metrics, and that text
  is not covered by these lemmas.
- **Scheduler** (`scheduler.dfy`): the tick logic of `loop()`. A class
  `RefreshScheduler` holds the statics `last_second` and `last_yday` and the
  global `partial_count`. Its `Tick` method is proved against the pure
  function `Step`. `Run` folds `Step` over a sequence of polls. Lemmas about
  `Step` and `Run` state the de-duplication rule, day-change detection and
  the counter-based full-refresh cadence.

Facts about the firmware that the model follows:

- The full refresh is triggered by the draw counter
  (`partial_count > 0 && partial_count % 30 == 0`), not by the minute of
  the hour. The counter counts every minute draw, full or partial, and is
  never reset. From start-up, the first 30 minute draws are partial unless
  the day changes. After that a full refresh comes every 30th draw.
- Polls are de-duplicated on the second alone. A poll at second 0 that
  follows an accepted poll at second 0 is dropped, even on a new day. So if
  the last successful read before midnight was at second 0 (for example,
  the read at 23:59:00 succeeds and every read from 23:59:01 to 23:59:59
  fails), no full refresh marks the new day
  (`Scheduler.MidnightLostAfterSecondZero`).
- The firmware has no weather path: no fetch, no weather state, no icon
  mapping, no weather window.
- Only the time window is aligned to 8 pixels; the date window is not.
- Each window is the measured text box plus 20 pixels in each dimension,
  as long as `tbw + 20 <= 65528` and `tbh + 20 < 65536`; the time window's
  x is then rounded down and its w rounded up to a multiple of 8. The
  firmware has no separate minimum-size rule. Beyond those bounds the 16-bit sums or `ceil8` wrap, and
  the time window's width can become 0 (`Layout.TimeRectWidthWraps`).
- The firmware does not clamp windows to the screen's right or bottom edge.
  The model therefore proves no such bound.
- `dateRect` is assigned in `computeRects` (src/main.cpp:181-184) but never
  read anywhere else in the firmware. So a date line longer than the
  25-character sample (`Text.DateTextLongest`) has no visible effect on any
  window.

## Model

| member | source | states |
|---|---|---|
| Pixels.ToU8 | src/main.cpp:196-197 | the `uint8_t` parameter receives the `int` argument reduced modulo 256, unchanged when already in range |
| Pixels.ToU16 | src/main.cpp:152-153 | storing an `int` in a `uint16_t` reduces it modulo 65536, unchanged when in range |
| Pixels.ToI16 | src/main.cpp:146-151 | storing an `int` in an `int16_t` wraps it into [-32768, 32768) congruently modulo 65536, unchanged when in range |
| Pixels.CDiv | src/main.cpp:139-140 | C division truncates toward zero: the remainder is smaller than the divisor and has the dividend's sign |
| Pixels.Align8 | src/main.cpp:51 | `align8(v)` is a multiple of 8 with `align8(v) <= v < align8(v) + 8` |
| Pixels.Ceil8 | src/main.cpp:52 | `ceil8(v)` is a multiple of 8; for v <= 65528 it satisfies `v <= ceil8(v) < v + 8`; above 65528 the 16-bit result wraps to 0 |
| Pixels.Ceil8IsLeast | src/main.cpp:52 | for v <= 65528, `ceil8(v)` is at most any multiple of 8 that is >= v |
| Text.WeekdayName | src/main.cpp:54-58 | total on `uint8_t`; always one of the seven names, and name number `dow` for dow < 7 |
| Text.WeekdayNameWeekly | src/main.cpp:57 | day numbers 7 apart get the same name (reduction modulo 7) |
| Text.MonthName | src/main.cpp:59-63 | "Month?" exactly when m is outside 1..12; otherwise the m-th month name |
| Text.NamesDistinct | src/main.cpp:56-60 | the seven weekday names are pairwise distinct, and so are the twelve month names |
| Text.NatDigits | src/main.cpp:198-199 | the decimal digits of n are non-empty, have one digit exactly when n < 10, and start with '0' only for n = 0 (no leading zeros) |
| Text.Dec | src/main.cpp:198-199 | `String(int)` is non-empty: all digits for n >= 0, otherwise a minus sign followed by digits |
| Text.NatDigitsRoundTrip | src/main.cpp:198-199 | the decimal digits of n parse back to n |
| Text.DecRoundTrip | src/main.cpp:198-199 | the signed decimal text of n parses back to n |
| Text.Pad2 | src/main.cpp:194 | `%02d` writes at least two characters |
| Text.Pad2Exact | src/main.cpp:194 | for 0..99, `%02d` writes exactly two digits that parse back to the value |
| Text.TimeText | src/main.cpp:193-194 | the text printed into the 6-byte buffer has at most 5 characters, leaving room for the terminator |
| Text.TimeTextRoundTrip | src/main.cpp:231-232 | for hour 0..23 and minute 0..59 the text is "HH:MM": 5 characters like the sample "23:59", a colon at index 2, and it parses back to (hour, minute) |
| Text.TimeSampleIsATime | src/main.cpp:135 | the time sample "23:59" is the text shown at 23:59 |
| Text.TimeTextTruncates | src/main.cpp:231-232 | an out-of-range hour is cut off at the buffer size: (123, 4) prints "123:0" |
| Text.DateText | src/main.cpp:196-199 | the date line `weekdayName(tm_wday) + ", " + monthName(tm_mon + 1) + " " + String(tm_mday) + " " + String(tm_year + 1900)`; specified by `Text.DateTextRoundTrip` (it parses back to its four fields); `Text.DateSampleIsADate` shows the date sample is this line for the fields Tuesday, February, 15, 2026 |
| Text.DateTextRoundTrip | src/main.cpp:196-199 | for weekday 0..6 and month 0..11 the date line splits into weekday, month, day and year, which parse back to exactly the `tm` fields it was built from |
| Text.DateTextLength | src/main.cpp:196-199 | a date with day 1..31 and a 4-digit year has at most 28 characters |
| Text.DateTextLongest | src/main.cpp:166 | "Wednesday, September 30 2026" reaches 28 characters, longer than the 25-character date sample |
| Text.DateSampleIsADate | src/main.cpp:166 | the date sample is `DateText` of the fields Tuesday, February, 15, 2026; it has the form of a date line, but no real day produces it, since 15 February 2026 is a Sunday |
| Layout.CursorX | src/main.cpp:146 | the cursor x of a centred text, `((int16_t)cx - (int16_t)(tbw / 2)) - tbx`, also used for the date at src/main.cpp:170; specified by `Layout.FieldWindowExact` (the box's left edge lands at `cx - tbw/2`) and `Layout.TimeTextCentred` |
| Layout.Window | src/main.cpp:149-156 | after clamping and the `uint16_t` cast, the window's x and y are non-negative and below 32768 |
| Layout.ComputeRects | src/main.cpp:129-189 | for every screen size and every text metric, the time window has `x % 8 == 0` and `w % 8 == 0` |
| Layout.FieldWindowExact | src/main.cpp:146-156 | when nothing wraps, the text box's left edge is at `cx - tbw/2`, and the window is the box padded by 10 on each side with x/y clamped at 0: `winW = tbw + 20`, `winH = tbh + 20` |
| Layout.TimeTextCentred | src/main.cpp:139-147 | the time text box is centred under the horizontal midpoint (within the pixel lost to halving), with its baseline 10 pixels above the vertical midpoint |
| Layout.TimeRectIsAlignedPaddedText | src/main.cpp:150-162 | the time window is the padded, clamped text box, with x rounded down and w rounded up to multiples of 8 |
| Layout.TimeRectCoversText | src/main.cpp:149-162 | every on-screen pixel of the time text box lies inside the time window, and the window is less than 28 pixels wider than the box |
| Layout.DateRectIsPaddedText | src/main.cpp:169-184 | the date window is the date text box padded by 10 on each side and clamped at 0, with no alignment |
| Layout.TimeRectWidthWraps | src/main.cpp:152-161 | for `tbw = 65509` the padded width 65529 is rounded up by `ceil8` past 65535, so the time window has width 0 |
| Layout.DateRectUnaligned | src/main.cpp:181-184 | for a 400x300 screen and a 340-pixel-wide date box the date window starts at x = 20, which is not a multiple of 8 |
| Scheduler.Step | src/main.cpp:312-333 | one pass of `loop()` as a function of the state and the poll; it draws if and only if the read succeeded, the second is new and it is 0, and only a draw moves the counter. `Scheduler.StepReadFailure`, `Scheduler.StepSameSecond` and `Scheduler.StepAccepted` give its full specification |
| Scheduler.StepReadFailure | src/main.cpp:312-313 | a failed clock read changes no state and draws nothing |
| Scheduler.StepSameSecond | src/main.cpp:315 | a poll whose second equals `last_second` changes no state and draws nothing |
| Scheduler.StepAccepted | src/main.cpp:316-333 | an accepted poll records its second and its day. It draws exactly when the second is 0. The draw is Full exactly when a recorded day differs from the sample's day, or the counter is a positive multiple of 30. Each draw adds 1 to the 32-bit counter, and no other poll changes it |
| Scheduler.StepRepeatIsNoop | src/main.cpp:315-316 | a second poll with the same sample is a no-op |
| Scheduler.FirstPollSeedsDay | src/main.cpp:319-320 | the first accepted poll after start-up seeds `last_yday` and is never a day change, so it never draws Full |
| Scheduler.MidnightIsFull | src/main.cpp:318-326 | with a day recorded and the previous accepted poll not at second 0 (`lastSecond != 0`), the second-0 poll of a different day draws Full whatever the counter |
| Scheduler.MidnightLostAfterSecondZero | src/main.cpp:313-321 | when the last successful read before midnight was at second 0 (23:59:00) and the reads after it fail, the 00:00:00 poll is dropped as a repeated second; the 00:00:01 poll records the new day without drawing, so no full refresh marks the new day |
| Scheduler.DayChangeConsumedOffMinute | src/main.cpp:319-331 | a day change seen at a non-zero second draws nothing and is consumed: the next minute of that day is chosen by the counter alone |
| Scheduler.Run | src/main.cpp:307-336 | repeated polling yields one action per poll |
| Scheduler.RunCountsDraws | src/main.cpp:323-332 | over any sequence of polls the counter grows by the number of draws, modulo 2^32 |
| Scheduler.PartialOnlyOffPeriod | src/main.cpp:324-332 | draw number j of any run can be Partial only if `partial_count + j` (mod 2^32) is not a positive multiple of 30 |
| Scheduler.AtMostThirtyPartialsInARow | src/main.cpp:324-332 | while the counter does not wrap, every 31 consecutive draws include a Full one |
| Scheduler.SameDayStep | src/main.cpp:315-326 | a poll on the recorded day keeps a day recorded; the counter grows by one modulo 2^32 exactly when it draws, and the draw is Full exactly when the counter is a positive multiple of 30 |
| Scheduler.SameDayDraws | src/main.cpp:319-332 | within one day, draw number j is Full if and only if `partial_count + j` (mod 2^32) is a positive multiple of 30 |
| Scheduler.MinutesDrawOnce | src/main.cpp:315-333 | polling at second 30 and then at second 0, once per minute, draws exactly once per minute |
| Scheduler.FirstHourAfterBoot | src/main.cpp:40 | from start-up, 61 minutes on one day draw 61 times: Full exactly at the 31st and the 61st draw, Partial otherwise |
| Scheduler.RefreshScheduler.constructor | src/main.cpp:309-310 | at start-up `last_second` and `last_yday` are -1 and `partial_count` is 0 |
| Scheduler.RefreshScheduler.Tick | src/main.cpp:307-336 | one pass of `loop()` updates the three fields and returns the action exactly as `Step` prescribes |

## Left out

- `wifiConnect`, `fetchUtcEpochFromNTP`, `syncRTCFromNTP_UTC`: network join, NTP polling with timeouts, and the RTC write. These are I/O with no decision logic the core depends on.
- `rtcNowLocal`: the RTC read and `localtime_r` are foreign calls. `Tick` takes the read's success flag and the `tm_sec` and `tm_yday` it returned. The other `tm` fields only reach the text functions.
- `i2cScan` and `setup`: peripheral initialisation. The full draw at boot (src/main.cpp:300-304) leaves all scheduler state untouched, and the model's initial state reflects this.
- Drawing: `setFullWindow`, `setPartialWindow`, `firstPage`/`nextPage`, `fillRect`, `fillScreen`, `setCursor` and `print` are display-library calls. Only the choice of action, the strings and the rectangles are modelled.
- `getTextBounds` and the fonts: the glyph metrics are foreign, so they are parameters of `Layout.ComputeRects`.
- In `drawFull`, the first values of the locals `x` and `y` (src/main.cpp:210-211) read uninitialised metrics. They are overwritten at src/main.cpp:220-221 before `setCursor(x, y)` at src/main.cpp:222 uses them. Those later values place the date from live glyph metrics, which is drawing placement. Neither is modelled.
- `delay` pacing and `Serial` logging.
- Layout.FieldWindowExact, Layout.TimeTextCentred, Layout.TimeRectIsAlignedPaddedText, Layout.DateRectIsPaddedText: proved only when no intermediate value leaves its `int16_t`/`uint16_t` type (`Layout.Fits`, for the field the lemma is about). Outside that range the firmware's wrap-around is modelled by `Layout.ComputeRects`, but no geometric property is claimed for it.
- Layout.TimeRectCoversText: additionally needs `tbw + 20 <= 65528`, because above that `ceil8` wraps the width to 0.
- Scheduler.AtMostThirtyPartialsInARow: needs a counter that does not wrap during the run. 2^32 is not a multiple of 30, so the cadence shifts once after 2^32 minute draws.

=== FILE: layout.dfy ===
/** The geometry of `computeRects`: where the time and date texts are placed
    and which windows are cleared around them. The glyph metrics returned by
    the display library's `getTextBounds` for the two sample strings are
    parameters; every intermediate value is kept at the C type the firmware
    stores it in (`int16_t` or `uint16_t`), wrap-around included. */
module Layout {
  import opened Pixels

  /** A display window: the firmware's `struct Rect { uint16_t x, y, w, h; }`. */
  datatype Rect = Rect(x: U16, y: U16, w: U16, h: U16)

  /** What `getTextBounds(text, 0, 0, &tbx, &tby, &tbw, &tbh)` reports: the
      offset of the text box from the cursor and its size. */
  datatype TextBounds = TextBounds(x: I16, y: I16, w: U16, h: U16)

  /** The globals `computeRects` assigns. */
  datatype Rects = Rects(timeRect: Rect, dateRect: Rect, timeCursorX: I16, timeCursorY: I16)

  /** Margin cleared around a text box on each side. */
  const Pad := 10
  /** Baseline of the time text relative to the vertical midpoint. */
  const TimeBaselineOffset := -10
  /** Baseline of the date text relative to the vertical midpoint. */
  const DateBaselineOffset := 35

  function Max0(v: int): (r: nat)
    ensures r >= v && (r == v || r == 0)
  {
    if v < 0 then 0 else v
  }

  /** Cursor x that centres a text box of the given bounds under column `cx`:
      `((int16_t)cx - (int16_t)(tbw / 2)) - tbx`, stored as `int16_t`. */
  function CursorX(cx: U16, b: TextBounds): (x: I16)
  {
    ToI16((ToI16(cx) - ToI16(b.w / 2)) - b.x)
  }

  /** The window around a text box drawn at (cursorX, cursorY): the box padded
      by `Pad` on each side (in `int16_t`/`uint16_t`), negative x and y
      clamped to 0, then cast to `uint16_t`. */
  function Window(cursorX: I16, cursorY: I16, b: TextBounds): (r: Rect)
    ensures r.x < 0x8000 && r.y < 0x8000
  {
    var winX := ToI16(cursorX + b.x - Pad);
    var winY := ToI16(cursorY + b.y - Pad);
    var winW := ToU16(b.w + 2 * Pad);
    var winH := ToU16(b.h + 2 * Pad);
    var clampedX := if winX < 0 then 0 else winX;
    var clampedY := if winY < 0 then 0 else winY;
    Rect(ToU16(clampedX), ToU16(clampedY), winW, winH)
  }

  /** `computeRects` for a screen of `width` x `height` pixels, given the
      bounds of the time sample "23:59" and of the date sample. Only the
      time window is aligned to 8 pixels on x and w. */
  function ComputeRects(width: I16, height: I16, timeBounds: TextBounds, dateBounds: TextBounds): (r: Rects)
    ensures r.timeRect.x % 8 == 0 && r.timeRect.w % 8 == 0
  {
    var cx := ToU16(CDiv(width, 2));
    var cy := ToU16(CDiv(height, 2));
    var baselineY := ToI16(cy + TimeBaselineOffset);
    var timeCursorX := CursorX(cx, timeBounds);
    var tw := Window(timeCursorX, baselineY, timeBounds);
    var dateCursorX := CursorX(cx, dateBounds);
    var dateCursorY := ToI16(cy + DateBaselineOffset);
    var dw := Window(dateCursorX, dateCursorY, dateBounds);
    Rects(Rect(Align8(tw.x), tw.y, Ceil8(tw.w), tw.h), dw, timeCursorX, baselineY)
  }

  predicate InI16(v: int) { -0x8000 <= v < 0x8000 }

  /** No intermediate value of one field's placement leaves its C type. */
  predicate FieldFits(cx: int, baselineY: int, b: TextBounds)
  {
    && InI16(cx - b.w / 2 - b.x)
    && InI16(cx - b.w / 2 - Pad)
    && InI16(baselineY + b.y - Pad)
    && b.w + 2 * Pad < 0x1_0000
    && b.h + 2 * Pad < 0x1_0000
  }

  /** A screen of non-negative size on which the field with this baseline
      offset and these bounds fits. */
  predicate Fits(width: I16, height: I16, baselineOffset: int, b: TextBounds)
  {
    && 0 <= width && 0 <= height
    && FieldFits(width / 2, height / 2 + baselineOffset, b)
  }

  /** Left edge of a text box centred under column `cx`. */
  function CentredLeft(cx: int, b: TextBounds): int { cx - b.w / 2 }

  /** When nothing wraps, the cursor puts the box's left edge at `cx - tbw/2`
      and the window is the box padded by 10 on each side, clamped at 0. */
  lemma FieldWindowExact(cx: U16, baselineY: I16, b: TextBounds)
    requires cx < 0x8000
    requires FieldFits(cx, baselineY, b)
    ensures CursorX(cx, b) + b.x == CentredLeft(cx, b)
    ensures Window(CursorX(cx, b), baselineY, b)
         == Rect(Max0(CentredLeft(cx, b) - Pad), Max0(baselineY + b.y - Pad), b.w + 2 * Pad, b.h + 2 * Pad)
  {
  }

  /** The time text box is centred under the screen's midpoint (to within the
      pixel lost by halving an odd width), its baseline 10 pixels above the
      vertical midpoint. */
  lemma TimeTextCentred(width: I16, height: I16, timeBounds: TextBounds, dateBounds: TextBounds)
    requires Fits(width, height, TimeBaselineOffset, timeBounds)
    ensures var r := ComputeRects(width, height, timeBounds, dateBounds);
      var left := r.timeCursorX + timeBounds.x;
      && 0 <= 2 * left + timeBounds.w - 2 * (width / 2) <= 1
      && r.timeCursorY == height / 2 + TimeBaselineOffset
  {
    FieldWindowExact(width / 2, height / 2 + TimeBaselineOffset, timeBounds);
  }

  /** The time window is the time text box padded by 10 on each side, clamped
      at 0, with x rounded down and w rounded up to multiples of 8. */
  lemma TimeRectIsAlignedPaddedText(width: I16, height: I16, timeBounds: TextBounds, dateBounds: TextBounds)
    requires Fits(width, height, TimeBaselineOffset, timeBounds)
    ensures var r := ComputeRects(width, height, timeBounds, dateBounds);
      var left := CentredLeft(width / 2, timeBounds);
      var top := height / 2 + TimeBaselineOffset + timeBounds.y;
      r.timeRect == Rect(Align8(Max0(left - Pad)), Max0(top - Pad),
                         Ceil8(timeBounds.w + 2 * Pad), timeBounds.h + 2 * Pad)
  {
    FieldWindowExact(width / 2, height / 2 + TimeBaselineOffset, timeBounds);
  }

  /** Every on-screen pixel of the time text box lies inside the time window,
      which exceeds the box by at most the padding plus 7 pixels of alignment
      on each side. */
  lemma TimeRectCoversText(width: I16, height: I16, timeBounds: TextBounds, dateBounds: TextBounds)
    requires Fits(width, height, TimeBaselineOffset, timeBounds)
    requires timeBounds.w + 2 * Pad <= 0xFFF8
    ensures var r := ComputeRects(width, height, timeBounds, dateBounds);
      var left := r.timeCursorX + timeBounds.x;
      var top := r.timeCursorY + timeBounds.y;
      && r.timeRect.x <= Max0(left) && left + timeBounds.w <= r.timeRect.x + r.timeRect.w
      && r.timeRect.y <= Max0(top) && top + timeBounds.h <= r.timeRect.y + r.timeRect.h
      && r.timeRect.w < timeBounds.w + 2 * Pad + 8
  {
    TimeRectIsAlignedPaddedText(width, height, timeBounds, dateBounds);
    TimeTextCentred(width, height, timeBounds, dateBounds);
  }

  /** The date window is the date text box padded by 10 on each side and
      clamped at 0, with no 8-pixel alignment. */
  lemma DateRectIsPaddedText(width: I16, height: I16, timeBounds: TextBounds, dateBounds: TextBounds)
    requires Fits(width, height, DateBaselineOffset, dateBounds)
    ensures var r := ComputeRects(width, height, timeBounds, dateBounds);
      var left := CentredLeft(width / 2, dateBounds);
      var top := height / 2 + DateBaselineOffset + dateBounds.y;
      r.dateRect == Rect(Max0(left - Pad), Max0(top - Pad), dateBounds.w + 2 * Pad, dateBounds.h + 2 * Pad)
  {
    FieldWindowExact(width / 2, height / 2 + DateBaselineOffset, dateBounds);
  }

  /** Outside the range where nothing wraps the window can be degenerate:
      a padded width of 65529 is rounded up by `ceil8` past 65535, and the
      16-bit result is 0. */
  lemma TimeRectWidthWraps()
    ensures ComputeRects(400, 300, TextBounds(0, -30, 65509, 30), TextBounds(0, -16, 100, 20)).timeRect.w == 0
  {
  }

  /** Because the date window is not aligned, its x need not be a multiple of 8. */
  lemma DateRectUnaligned()
    ensures ComputeRects(400, 300, TextBounds(0, -30, 100, 30), TextBounds(1, -16, 340, 20)).dateRect.x == 20
  {
  }
}

=== FILE: pixels.dfy ===
/** Fixed-width C integers as the firmware uses them, and the 8-pixel
    alignment helpers applied to partial-refresh windows. */
module Pixels {

  type U8 = x: int | 0 <= x < 0x100
  type U16 = x: int | 0 <= x < 0x1_0000
  type I16 = x: int | -0x8000 <= x < 0x8000
  type U32 = x: int | 0 <= x < 0x1_0000_0000

  /** Conversion of an `int` value to `uint8_t`: reduction modulo 2^8. */
  function ToU8(x: int): (r: U8)
    ensures (x - r) % 0x100 == 0
    ensures 0 <= x < 0x100 ==> r == x
  {
    x % 0x100
  }

  /** Conversion of an `int` value to `uint16_t`: reduction modulo 2^16. */
  function ToU16(x: int): (r: U16)
    ensures (x - r) % 0x1_0000 == 0
    ensures 0 <= x < 0x1_0000 ==> r == x
  {
    x % 0x1_0000
  }

  /** Conversion of an `int` value to `int16_t`: the two's-complement
      wrap-around into [-2^15, 2^15). */
  function ToI16(x: int): (r: I16)
    ensures (x - r) % 0x1_0000 == 0
    ensures -0x8000 <= x < 0x8000 ==> r == x
  {
    var u := (x + 0x8000) % 0x1_0000;
    assert x + 0x8000 == 0x1_0000 * ((x + 0x8000) / 0x1_0000) + u;
    u - 0x8000
  }

  /** C integer division, which truncates toward zero (Dafny's `/` is Euclidean). */
  function CDiv(a: int, b: int): (q: int)
    requires b > 0
    ensures -b < a - b * q < b
    ensures a >= 0 ==> 0 <= a - b * q
    ensures a <= 0 ==> a - b * q <= 0
  {
    if a >= 0 then a / b else -((-a) / b)
  }

  /** `align8`: the largest multiple of 8 that is at most `v`. */
  function Align8(v: U16): (r: U16)
    ensures r % 8 == 0
    ensures r <= v < r + 8
  {
    (v / 8) * 8
  }

  /** `ceil8`: the computation `(v + 7) / 8 * 8` is done in `int` and
      truncated to 16 bits on return, so above 65528 it wraps to 0. */
  function Ceil8(v: U16): (r: U16)
    ensures r % 8 == 0
    ensures v <= 0xFFF8 ==> v <= r < v + 8
    ensures v > 0xFFF8 ==> r == 0
  {
    ToU16(((v + 7) / 8) * 8)
  }

  /** `ceil8(v)` is the least multiple of 8 not below `v`, for every `v`
      whose rounded value is still representable. */
  lemma Ceil8IsLeast(v: U16, m: int)
    requires v <= 0xFFF8
    requires m % 8 == 0 && v <= m
    ensures Ceil8(v) <= m
  {
  }
}

=== FILE: scheduler.dfy ===
/** The once-per-second refresh decision of `loop()`. Each poll reads the
    clock (which may fail) and decides whether to redraw nothing, the whole
    screen, or only the time window. The state is the two statics of
    `loop()` (`last_second`, `last_yday`, both starting at the sentinel -1)
    and the global `uint32_t partial_count`, which counts minute redraws of
    either kind and is never reset. */
module Scheduler {
  import opened Pixels

  /** What a poll asks the display to do. */
  datatype Action = NoDraw | Full | Partial

  /** One clock read: whether it succeeded, and the local `tm_sec` and
      `tm_yday` it returned. */
  datatype Sample = Sample(ok: bool, sec: int, yday: int)

  datatype SchedState = SchedState(lastSecond: int, lastYday: int, partialCount: U32)

  /** Value both statics hold before the first accepted poll. */
  const Unset := -1

  /** Every `FullPeriod`-th minute redraw is a full one. */
  const FullPeriod := 30

  const Initial := SchedState(Unset, Unset, 0)

  /** The counter condition for a full refresh. */
  predicate Periodic(count: U32)
  {
    count > 0 && count % FullPeriod == 0
  }

  /** One poll of `loop()`, written in the order the firmware runs it. */
  function Step(s: SchedState, x: Sample): (r: (SchedState, Action))
    ensures r.1 != NoDraw <==> x.ok && x.sec != s.lastSecond && x.sec == 0
    ensures r.1 == NoDraw ==> r.0.partialCount == s.partialCount
  {
    if !x.ok then (s, NoDraw)
    else if x.sec == s.lastSecond then (s, NoDraw)
    else
      var seeded := if s.lastYday == Unset then x.yday else s.lastYday;
      var dayChanged := x.yday != seeded;
      var yday := if dayChanged then x.yday else seeded;
      if x.sec == 0 then
        var action := if dayChanged || Periodic(s.partialCount) then Full else Partial;
        (SchedState(x.sec, yday, (s.partialCount + 1) % 0x1_0000_0000), action)
      else
        (SchedState(x.sec, yday, s.partialCount), NoDraw)
  }

  /** The poll's day-change test, restated: a day change is seen exactly
      when a day was already recorded and the sample's day differs from it. */
  predicate DayChange(s: SchedState, x: Sample)
  {
    s.lastYday != Unset && x.yday != s.lastYday
  }

  /** A failed clock read changes nothing and draws nothing. */
  lemma StepReadFailure(s: SchedState, x: Sample)
    requires !x.ok
    ensures Step(s, x) == (s, NoDraw)
  {
  }

  /** A poll within the same second changes nothing and draws nothing. */
  lemma StepSameSecond(s: SchedState, x: Sample)
    requires x.sec == s.lastSecond
    ensures Step(s, x) == (s, NoDraw)
  {
  }

  /** An accepted poll (a successful read with a new second) records the
      second and the day of the sample; it draws if and only if the second is
      0, Full exactly when the day changed or the counter is a positive
      multiple of 30, and each draw adds one to the 32-bit counter. */
  lemma StepAccepted(s: SchedState, x: Sample)
    requires x.ok && x.sec != s.lastSecond
    ensures var (s', a) := Step(s, x);
      && s'.lastSecond == x.sec
      && s'.lastYday == x.yday
      && (a != NoDraw <==> x.sec == 0)
      && (a == Full <==> x.sec == 0 && (DayChange(s, x) || Periodic(s.partialCount)))
      && s'.partialCount == if x.sec == 0 then (s.partialCount + 1) % 0x1_0000_0000 else s.partialCount
  {
  }

  /** Polling twice with the same sample: the second poll is a no-op. */
  lemma StepRepeatIsNoop(s: SchedState, x: Sample)
    ensures Step(Step(s, x).0, x) == (Step(s, x).0, NoDraw)
  {
  }

  /** The first accepted poll after start-up only seeds the day: it never
      counts as a day change, so a draw at that poll is Partial. */
  lemma FirstPollSeedsDay(x: Sample)
    requires x.ok && x.sec != Unset
    ensures Step(Initial, x).0.lastYday == x.yday
    ensures Step(Initial, x).1 != Full
  {
  }

  /** Midnight: with yesterday recorded, the poll at second 0 of a new day
      draws the whole screen, whatever the counter. */
  lemma MidnightIsFull(s: SchedState, x: Sample)
    requires s.lastYday != Unset && s.lastSecond != 0
    requires x.ok && x.sec == 0 && x.yday != s.lastYday
    ensures Step(s, x).1 == Full
  {
  }

  /** The de-duplication compares the second alone, so a poll at second 0
      right after an accepted poll at second 0 is dropped even when the day
      has changed. If the read at 23:59:00 succeeds and the reads after it
      fail until midnight, the 00:00:00 poll is dropped, the new day is
      recorded at 00:00:01 without a draw, and no full refresh marks it. */
  lemma MidnightLostAfterSecondZero(s: SchedState, d: int)
    requires s.lastSecond != 0 && s.lastYday == d && d != Unset
    ensures var xs := [Sample(true, 0, d), Sample(false, 0, d), Sample(true, 0, d + 1), Sample(true, 1, d + 1)];
      var (s', acts) := Run(s, xs);
      && acts[0] != NoDraw
      && acts[1] == NoDraw && acts[2] == NoDraw && acts[3] == NoDraw
      && s'.lastYday == d + 1
  {
    var xs := [Sample(true, 0, d), Sample(false, 0, d), Sample(true, 0, d + 1), Sample(true, 1, d + 1)];
    RunFirst(s, xs);
    var s1 := Step(s, xs[0]).0;
    RunFirst(s1, xs[1..]);
    RunFirst(s1, xs[2..]);
    var s3 := Step(s1, xs[2]).0;
    RunFirst(s3, xs[3..]);
  }

  /** A day change seen at a second other than 0 is used up: at the next
      minute of the same day the choice depends on the counter alone. */
  lemma DayChangeConsumedOffMinute(s: SchedState, x: Sample, y: Sample)
    requires s.lastYday != Unset
    requires x.ok && x.sec != s.lastSecond && x.sec != 0 && x.yday != s.lastYday
    requires y.ok && y.sec == 0 && y.yday == x.yday
    ensures Step(s, x).1 == NoDraw
    ensures Step(Step(s, x).0, y).1 == if Periodic(s.partialCount) then Full else Partial
  {
  }

  // ---------------------------------------------------------------------
  // Sequences of polls

  /** The state after a sequence of polls, and the action of each poll. */
  function Run(s: SchedState, xs: seq<Sample>): (r: (SchedState, seq<Action>))
    ensures |r.1| == |xs|
    decreases |xs|
  {
    if |xs| == 0 then (s, [])
    else
      var (s1, a) := Step(s, xs[0]);
      var (s2, acts) := Run(s1, xs[1..]);
      (s2, [a] + acts)
  }

  /** The draws among a sequence of actions, in order. */
  function Draws(acts: seq<Action>): (d: seq<Action>)
    ensures |d| <= |acts|
    ensures forall i :: 0 <= i < |d| ==> d[i] != NoDraw
  {
    if |acts| == 0 then []
    else if acts[0] == NoDraw then Draws(acts[1..])
    else [acts[0]] + Draws(acts[1..])
  }

  /** Unfolding a run by its first poll. */
  lemma RunFirst(s: SchedState, xs: seq<Sample>)
    requires |xs| > 0
    ensures Run(s, xs).0 == Run(Step(s, xs[0]).0, xs[1..]).0
    ensures Run(s, xs).1 == [Step(s, xs[0]).1] + Run(Step(s, xs[0]).0, xs[1..]).1
  {
  }

  /** Unfolding the draws by the first action. */
  lemma DrawsFirst(a: Action, acts: seq<Action>)
    ensures Draws([a] + acts) == if a == NoDraw then Draws(acts) else [a] + Draws(acts)
  {
    assert ([a] + acts)[1..] == acts;
  }

  /** Unfolding the draws of a run by its first poll. */
  lemma RunDrawsFirst(s: SchedState, xs: seq<Sample>)
    requires |xs| > 0
    ensures var (s1, a) := Step(s, xs[0]);
      Draws(Run(s, xs).1) == if a == NoDraw then Draws(Run(s1, xs[1..]).1) else [a] + Draws(Run(s1, xs[1..]).1)
  {
    var (s1, a) := Step(s, xs[0]);
    RunFirst(s, xs);
    DrawsFirst(a, Run(s1, xs[1..]).1);
  }

  /** The counter counts draws: after any sequence of polls it has grown by
      the number of draws, modulo 2^32. */
  lemma {:induction false} RunCountsDraws(s: SchedState, xs: seq<Sample>)
    ensures Run(s, xs).0.partialCount == (s.partialCount + |Draws(Run(s, xs).1)|) % 0x1_0000_0000
    decreases |xs|
  {
    if |xs| > 0 {
      var (s1, a) := Step(s, xs[0]);
      RunFirst(s, xs);
      RunCountsDraws(s1, xs[1..]);
      var rest := Run(s1, xs[1..]).1;
      DrawsFirst(a, rest);
      if a != NoDraw {
        assert s1.partialCount == (s.partialCount + 1) % 0x1_0000_0000;
        ShiftCount(s.partialCount, |Draws(rest)| + 1);
      }
    }
  }

  /** The j-th draw of any run is Partial only if the counter value it saw,
      `partialCount + j` modulo 2^32, is not a positive multiple of 30. */
  lemma {:induction false} PartialOnlyOffPeriod(s: SchedState, xs: seq<Sample>, j: nat)
    requires j < |Draws(Run(s, xs).1)|
    requires Draws(Run(s, xs).1)[j] == Partial
    ensures !Periodic((s.partialCount + j) % 0x1_0000_0000)
    decreases |xs|
  {
    var (s1, a) := Step(s, xs[0]);
    RunDrawsFirst(s, xs);
    var rest := Draws(Run(s1, xs[1..]).1);
    if a == NoDraw {
      assert Draws(Run(s, xs).1) == rest;
      assert s1.partialCount == s.partialCount;
      PartialOnlyOffPeriod(s1, xs[1..], j);
    } else if j > 0 {
      assert Draws(Run(s, xs).1)[j] == rest[j - 1];
      assert s1.partialCount == (s.partialCount + 1) % 0x1_0000_0000;
      PartialOnlyOffPeriod(s1, xs[1..], j - 1);
      ShiftPeriodic(s.partialCount, s1.partialCount, j);
    } else {
      assert a == Partial;
      assert (s.partialCount + j) % 0x1_0000_0000 == s.partialCount;
    }
  }

  /** Adding one modulo 2^32 and then j - 1 is adding j modulo 2^32. */
  lemma ShiftCount(c: U32, j: nat)
    requires j > 0
    ensures ((c + 1) % 0x1_0000_0000 + (j - 1)) % 0x1_0000_0000 == (c + j) % 0x1_0000_0000
  {
  }

  /** The counter value draw j sees, after one draw has been counted. */
  lemma ShiftPeriodic(c: U32, c1: U32, j: nat)
    requires j > 0 && c1 == (c + 1) % 0x1_0000_0000
    ensures (c1 + (j - 1)) % 0x1_0000_0000 == (c + j) % 0x1_0000_0000
    ensures Periodic((c1 + (j - 1)) % 0x1_0000_0000) <==> Periodic((c + j) % 0x1_0000_0000)
  {
    ShiftCount(c, j);
  }

  /** Ghosting is bounded: as long as the counter does not wrap, no 31
      consecutive draws are all Partial. */
  lemma AtMostThirtyPartialsInARow(s: SchedState, xs: seq<Sample>, j: nat)
    requires s.partialCount + |xs| < 0x1_0000_0000
    requires j + FullPeriod < |Draws(Run(s, xs).1)|
    ensures exists k :: j <= k <= j + FullPeriod && Draws(Run(s, xs).1)[k] == Full
  {
    var d := Draws(Run(s, xs).1);
    var k := NextPeriodic(s.partialCount, j);
    if d[k] == Partial {
      PartialOnlyOffPeriod(s, xs, k);
    }
    assert d[k] == Full;
  }

  /** Within 30 steps from `c + j` the counter reaches a positive multiple
      of 30, if it does not wrap on the way. */
  lemma NextPeriodic(c: U32, j: nat) returns (k: nat)
    requires c + j + FullPeriod < 0x1_0000_0000
    ensures j <= k <= j + FullPeriod
    ensures Periodic((c + k) % 0x1_0000_0000)
  {
    var t := c + j;
    k := if t % FullPeriod == 0 then (if t > 0 then j else j + FullPeriod) else j + FullPeriod - t % FullPeriod;
    assert c + k < 0x1_0000_0000;
  }

  /** On a single day (no day change possible), the choice is the counter's
      alone: the j-th draw is Full if and only if `partialCount + j` (modulo
      2^32) is a positive multiple of 30. */
  lemma {:induction false} SameDayDraws(s: SchedState, xs: seq<Sample>, yday: int, j: nat)
    requires s.lastYday == yday || s.lastYday == Unset
    requires forall i :: 0 <= i < |xs| ==> xs[i].yday == yday
    requires j < |Draws(Run(s, xs).1)|
    ensures Draws(Run(s, xs).1)[j] == Full <==> Periodic((s.partialCount + j) % 0x1_0000_0000)
    decreases |xs|
  {
    var (s1, a) := Step(s, xs[0]);
    RunDrawsFirst(s, xs);
    SameDayStep(s, xs[0], yday);
    var rest := Draws(Run(s1, xs[1..]).1);
    var d := Draws(Run(s, xs).1);
    if a == NoDraw {
      assert d == rest;
      SameDayDraws(s1, xs[1..], yday, j);
    } else if j > 0 {
      assert d[j] == rest[j - 1];
      SameDayDraws(s1, xs[1..], yday, j - 1);
      ShiftPeriodic(s.partialCount, s1.partialCount, j);
    } else {
      assert d[0] == a;
      assert (s.partialCount + j) % 0x1_0000_0000 == s.partialCount;
    }
  }

  /** One poll on the recorded day: the day stays recorded, and a draw is
      Full exactly when the counter is a positive multiple of 30. */
  lemma SameDayStep(s: SchedState, x: Sample, yday: int)
    requires s.lastYday == yday || s.lastYday == Unset
    requires x.yday == yday
    ensures var (s1, a) := Step(s, x);
      && (s1.lastYday == yday || s1.lastYday == Unset)
      && (a == NoDraw ==> s1.partialCount == s.partialCount)
      && (a != NoDraw ==> s1.partialCount == (s.partialCount + 1) % 0x1_0000_0000)
      && (a == Full <==> a != NoDraw && Periodic(s.partialCount))
  {
  }

  /** `n` minutes of once-a-minute polling on day `yday`: a poll at second 30,
      then one at second 0. */
  function Minutes(n: nat, yday: int): (xs: seq<Sample>)
    ensures |xs| == 2 * n
    ensures forall i :: 0 <= i < |xs| ==> xs[i].ok && xs[i].yday == yday
  {
    if n == 0 then [] else [Sample(true, 30, yday), Sample(true, 0, yday)] + Minutes(n - 1, yday)
  }

  /** Each minute of `Minutes` makes exactly one draw. */
  lemma {:induction false} MinutesDrawOnce(s: SchedState, n: nat, yday: int)
    ensures |Draws(Run(s, Minutes(n, yday)).1)| == n
    decreases n
  {
    if n > 0 {
      var xs := Minutes(n, yday);
      var (s1, a1) := Step(s, xs[0]);
      var (s2, a2) := Step(s1, xs[1]);
      assert a1 == NoDraw && a2 != NoDraw && s2.lastSecond == 0;
      assert xs[2..] == Minutes(n - 1, yday);
      assert xs[1..][1..] == xs[2..];
      MinutesDrawOnce(s2, n - 1, yday);
      var rest := Run(s2, xs[2..]).1;
      assert Run(s, xs).1 == [a1] + ([a2] + rest);
      assert Draws([a1] + ([a2] + rest)) == [a2] + Draws(rest);
    }
  }

  /** From start-up, an hour of minute polls on one day draws 61 times: the
      first 30 are Partial, then Full at the 31st and at the 61st, so after
      the first full refresh there is one every 30 minutes. */
  lemma FirstHourAfterBoot(yday: int, j: nat)
    requires j <= 60
    ensures |Draws(Run(Initial, Minutes(61, yday)).1)| == 61
    ensures Draws(Run(Initial, Minutes(61, yday)).1)[j] == Full <==> j == 30 || j == 60
  {
    var xs := Minutes(61, yday);
    MinutesDrawOnce(Initial, 61, yday);
    SameDayDraws(Initial, xs, yday, j);
    assert j % 0x1_0000_0000 == j;
    assert j > 0 && j % FullPeriod == 0 <==> j == 30 || j == 60;
  }

  // ---------------------------------------------------------------------
  // The firmware's state, updated in place

  class RefreshScheduler {
    var lastSecond: int
    var lastYday: int
    var partialCount: U32

    function State(): SchedState
      reads this
    {
      SchedState(lastSecond, lastYday, partialCount)
    }

    /** Program start: both statics at -1, the counter at 0. */
    constructor ()
      ensures State() == Initial
    {
      lastSecond := Unset;
      lastYday := Unset;
      partialCount := 0;
    }

    /** One pass of `loop()` after the clock read: `ok` says whether the read
        succeeded, `sec` and `yday` are its `tm_sec` and `tm_yday`. */
    method Tick(ok: bool, sec: int, yday: int) returns (action: Action)
      modifies this
      ensures (State(), action) == Step(old(State()), Sample(ok, sec, yday))
    {
      if !ok {
        return NoDraw;
      }
      if sec == lastSecond {
        return NoDraw;
      }
      lastSecond := sec;
      if lastYday == Unset {
        lastYday := yday;
      }
      var dayChanged := yday != lastYday;
      if dayChanged {
        lastYday := yday;
      }
      action := NoDraw;
      if sec == 0 {
        if dayChanged || (partialCount > 0 && partialCount % FullPeriod == 0) {
          action := Full;
        } else {
          action := Partial;
        }
        partialCount := (partialCount + 1) % 0x1_0000_0000;
      }
    }
  }
}

=== FILE: text.dfy ===
/** The text the clock draws: day and month names, the "HH:MM" time string
    written by `snprintf` into a 6-byte buffer, and the date line built with
    Arduino `String` concatenation. Parsers for those strings are given as
    independent partners, so that the round-trip lemmas say the strings
    carry exactly the fields they were built from. */
module Text {
  import opened Pixels

  datatype Option<T> = None | Some(value: T)

  /** RTClib numbering: Sunday = 0 ... Saturday = 6. */
  const WeekdayNames: seq<string> :=
    ["Sunday", "Monday", "Tuesday", "Wednesday", "Thursday", "Friday", "Saturday"]

  /** The month names for months 1..12 (the firmware's table also holds an
      unused empty entry at index 0). */
  const MonthNames: seq<string> :=
    ["January", "February", "March", "April", "May", "June", "July",
     "August", "September", "October", "November", "December"]

  const UnknownMonth: string := "Month?"

  /** `weekdayName`: any `uint8_t` is accepted and reduced modulo 7. */
  function WeekdayName(dow: U8): (r: string)
    ensures r in WeekdayNames
    ensures dow < 7 ==> r == WeekdayNames[dow]
  {
    WeekdayNames[dow % 7]
  }

  /** `monthName`: 1..12 name a month; every other value gives "Month?". */
  function MonthName(m: U8): (r: string)
    ensures (r == UnknownMonth) <==> (m < 1 || m > 12)
    ensures 1 <= m <= 12 ==> r == MonthNames[m - 1]
  {
    if m < 1 || m > 12 then UnknownMonth else MonthNames[m - 1]
  }

  /** Two day numbers that differ by a whole week get the same name. */
  lemma WeekdayNameWeekly(dow: U8)
    requires dow + 7 < 0x100
    ensures WeekdayName(dow + 7) == WeekdayName(dow)
  {
  }

  // ---------------------------------------------------------------------
  // Decimal digits

  predicate IsDigit(c: char) { '0' <= c <= '9' }

  predicate AllDigits(s: string) { forall i :: 0 <= i < |s| ==> IsDigit(s[i]) }

  function DigitChar(d: nat): (c: char)
    requires d < 10
    ensures IsDigit(c) && c as int - '0' as int == d
  {
    ('0' as int + d) as char
  }

  function DigitValue(c: char): (d: nat)
    requires IsDigit(c)
    ensures d < 10 && DigitChar(d) == c
  {
    c as int - '0' as int
  }

  /** The decimal digits of `n`, most significant first, without leading zeros. */
  function NatDigits(n: nat): (s: string)
    ensures 1 <= |s| && AllDigits(s)
    ensures n < 10 <==> |s| == 1
    ensures s[0] == '0' <==> n == 0
  {
    if n < 10 then [DigitChar(n)] else NatDigits(n / 10) + [DigitChar(n % 10)]
  }

  /** The value of a non-empty string of decimal digits. */
  function ParseNat(s: string): (v: nat)
    requires 1 <= |s| && AllDigits(s)
    decreases |s|
  {
    if |s| == 1 then DigitValue(s[0])
    else ParseNat(s[..|s| - 1]) * 10 + DigitValue(s[|s| - 1])
  }

  /** Decimal text of a signed integer, as Arduino `String(int)` and `%d`
      write it: a minus sign for negative values, then the digits. */
  function Dec(n: int): (s: string)
    ensures 1 <= |s|
    ensures n >= 0 ==> AllDigits(s)
    ensures n < 0 ==> s[0] == '-' && AllDigits(s[1..])
  {
    if n < 0 then "-" + NatDigits(-n) else NatDigits(n)
  }

  /** Inverse of `Dec`. */
  function ParseInt(s: string): (r: Option<int>)
  {
    if 2 <= |s| && s[0] == '-' && AllDigits(s[1..]) then Some(-(ParseNat(s[1..]) as int))
    else if 1 <= |s| && AllDigits(s) then Some(ParseNat(s))
    else None
  }

  lemma {:induction false} NatDigitsRoundTrip(n: nat)
    ensures ParseNat(NatDigits(n)) == n
  {
    if n >= 10 {
      var s := NatDigits(n);
      assert s[..|s| - 1] == NatDigits(n / 10);
      NatDigitsRoundTrip(n / 10);
    }
  }

  lemma ParseIntDigits(d: string)
    requires 1 <= |d| && AllDigits(d)
    ensures ParseInt(d) == Some(ParseNat(d))
    ensures ParseInt("-" + d) == Some(-(ParseNat(d) as int))
  {
    assert IsDigit(d[0]);
    assert ("-" + d)[1..] == d;
  }

  lemma DecRoundTrip(n: int)
    ensures ParseInt(Dec(n)) == Some(n)
  {
    var d := NatDigits(if n < 0 then -n else n);
    ParseIntDigits(d);
    NatDigitsRoundTrip(if n < 0 then -n else n);
  }

  lemma {:induction false} NatDigitsLength(n: nat, k: nat)
    requires n < Pow10(k)
    ensures |NatDigits(n)| <= if k == 0 then 1 else k
  {
    if n >= 10 {
      NatDigitsLength(n / 10, k - 1);
    }
  }

  function Pow10(k: nat): (p: nat)
    ensures p >= 1
  {
    if k == 0 then 1 else 10 * Pow10(k - 1)
  }

  // ---------------------------------------------------------------------
  // The time string

  /** `%02d`: at least two characters, zero-padded; a negative value already
      has two characters with its sign, so only 0..9 gain a leading zero. */
  function Pad2(n: int): (s: string)
    ensures 2 <= |s|
  {
    if 0 <= n < 10 then "0" + Dec(n) else Dec(n)
  }

  lemma Pad2Exact(n: int)
    requires 0 <= n < 100
    ensures |Pad2(n)| == 2 && AllDigits(Pad2(n)) && ParseNat(Pad2(n)) == n
  {
    if n < 10 {
      assert Pad2(n) == ['0', DigitChar(n)];
      assert Pad2(n)[..1] == "0";
    } else {
      NatDigitsLength(n, 2);
      NatDigitsRoundTrip(n);
    }
  }

  /** Size of the buffers `timeBuf` and `buf` the time is printed into. */
  const TimeBufferSize := 6

  /** The sample string the time window is measured from. */
  const TimeSample: string := "23:59"

  /** `snprintf(buf, 6, "%02d:%02d", hour, min)`: the formatted text cut to
      the 5 characters that fit before the terminating NUL. */
  function TimeText(hour: int, minute: int): (s: string)
    ensures |s| < TimeBufferSize
  {
    var full := Pad2(hour) + ":" + Pad2(minute);
    if |full| < TimeBufferSize then full else full[..TimeBufferSize - 1]
  }

  /** Inverse of `TimeText` on its valid range: "HH:MM" gives (HH, MM). */
  function ParseTime(s: string): (r: Option<(nat, nat)>)
  {
    if |s| == 5 && s[2] == ':' && AllDigits(s[..2]) && AllDigits(s[3..])
    then Some((ParseNat(s[..2]), ParseNat(s[3..])))
    else None
  }

  /** For a valid clock reading the time text is exactly "HH:MM": as long as
      the sample it is measured from, and it gives back hour and minute. */
  lemma TimeTextRoundTrip(hour: int, minute: int)
    requires 0 <= hour < 24 && 0 <= minute < 60
    ensures |TimeText(hour, minute)| == |TimeSample| == 5
    ensures TimeText(hour, minute)[2] == ':'
    ensures ParseTime(TimeText(hour, minute)) == Some((hour, minute))
  {
    Pad2Exact(hour);
    Pad2Exact(minute);
    var s := TimeText(hour, minute);
    assert s == Pad2(hour) + ":" + Pad2(minute);
    assert s[..2] == Pad2(hour);
    assert s[3..] == Pad2(minute);
  }

  /** The sample is what the clock shows at 23:59. */
  lemma TimeSampleIsATime()
    ensures TimeText(23, 59) == TimeSample
  {
    assert NatDigits(23) == "23" && NatDigits(59) == "59";
  }

  /** Out of range, the text is cut rather than overflowing the buffer. */
  lemma TimeTextTruncates()
    ensures TimeText(123, 4) == "123:0"
  {
    assert NatDigits(123) == "123";
    assert NatDigits(4) == "4";
  }

  // ---------------------------------------------------------------------
  // The date line

  /** The date line of the full redraw, built from the `struct tm` fields:
      `tm_wday` and `tm_mon + 1` are passed as `uint8_t`, `tm_mday` and
      `tm_year + 1900` are written as decimal numbers. */
  function DateText(wday: int, mon: int, mday: int, year: int): (s: string)
  {
    WeekdayName(ToU8(wday)) + ", " + MonthName(ToU8(mon + 1)) + " " + Dec(mday) + " " + Dec(year + 1900)
  }

  /** The sample string the date window is measured from. */
  const DateSample: string := "Tuesday, February 15 2026"

  /** Fields of a string separated by single spaces. */
  function Split(s: string): (r: seq<string>)
    ensures 1 <= |r|
  {
    if |s| == 0 then [""]
    else
      var rest := Split(s[1..]);
      if s[0] == ' ' then [""] + rest else [[s[0]] + rest[0]] + rest[1..]
  }

  lemma {:induction false} SplitNoSpace(a: string)
    requires ' ' !in a
    ensures Split(a) == [a]
  {
    if |a| > 0 {
      SplitNoSpace(a[1..]);
      assert [a[0]] + a[1..] == a;
    }
  }

  /** Splitting at the last space: the part after it is the last field. */
  lemma {:induction false} SplitJoin(a: string, b: string)
    requires ' ' !in b
    ensures Split(a + " " + b) == Split(a) + [b]
    decreases |a|
  {
    if |a| == 0 {
      assert a + " " + b == [' '] + b;
      assert (a + " " + b)[1..] == b;
      SplitNoSpace(b);
    } else {
      assert (a + " " + b)[1..] == a[1..] + " " + b;
      SplitJoin(a[1..], b);
    }
  }

  /** Position of `s` in `names`, if it is there. */
  function FindName(names: seq<string>, s: string): (r: Option<nat>)
    ensures r.Some? ==> r.value < |names| && names[r.value] == s
    ensures r.None? ==> s !in names
  {
    if |names| == 0 then None
    else if names[0] == s then Some(0)
    else match FindName(names[1..], s)
      case None => None
      case Some(i) => Some(i + 1)
  }

  predicate Distinct(names: seq<string>)
  {
    forall i, j :: 0 <= i < j < |names| ==> names[i] != names[j]
  }

  lemma FindNameAt(names: seq<string>, i: nat)
    requires Distinct(names) && i < |names|
    ensures FindName(names, names[i]) == Some(i)
  {
    var r := FindName(names, names[i]);
    assert r.Some?;
  }

  lemma NamesDistinct()
    ensures Distinct(WeekdayNames) && Distinct(MonthNames)
  {
  }

  /** Every weekday and month name is found again at its own position. */
  lemma NamesFound(wday: nat, mon: nat)
    requires wday < |WeekdayNames| && mon < |MonthNames|
    ensures FindName(WeekdayNames, WeekdayNames[wday]) == Some(wday)
    ensures FindName(MonthNames, MonthNames[mon]) == Some(mon)
  {
    NamesDistinct();
    FindNameAt(WeekdayNames, wday);
    FindNameAt(MonthNames, mon);
  }

  lemma NamesHaveNoSpace()
    ensures forall i :: 0 <= i < |WeekdayNames| ==> ' ' !in WeekdayNames[i]
    ensures forall i :: 0 <= i < |MonthNames| ==> ' ' !in MonthNames[i]
  {
  }

  lemma NameLengths()
    ensures forall i :: 0 <= i < |WeekdayNames| ==> |WeekdayNames[i]| <= 9
    ensures forall i :: 0 <= i < |MonthNames| ==> |MonthNames[i]| <= 9
  {
  }

  /** Inverse of `DateText` on valid fields: "<weekday>, <month> <day> <year>". */
  function ParseDate(s: string): (r: Option<(nat, nat, int, int)>)
  {
    var parts := Split(s);
    if |parts| != 4 || |parts[0]| == 0 || parts[0][|parts[0]| - 1] != ',' then None
    else
      match (FindName(WeekdayNames, parts[0][..|parts[0]| - 1]), FindName(MonthNames, parts[1]),
             ParseInt(parts[2]), ParseInt(parts[3]))
      case (Some(w), Some(m), Some(d), Some(y)) => Some((w, m, d, y - 1900))
      case _ => None
  }

  lemma DecHasNoSpace(n: int)
    ensures ' ' !in Dec(n)
  {
  }

  lemma CommaSpace(w: string, m: string)
    ensures w + ", " + m == (w + ",") + " " + m
  {
    var a, b := w + ", " + m, (w + ",") + " " + m;
    assert |a| == |b|;
    forall k | 0 <= k < |a| ensures a[k] == b[k] {
      if k < |w| + 2 {
        assert a[k] == (w + ", ")[k];
        assert b[k] == (w + "," + " ")[k];
      }
    }
  }

  /** The first two fields of a date line. */
  lemma SplitWeekdayMonth(w: string, m: string)
    requires ' ' !in w && ' ' !in m
    ensures Split(w + ", " + m) == [w + ",", m]
  {
    assert ' ' !in w + ",";
    SplitNoSpace(w + ",");
    CommaSpace(w, m);
    SplitJoin(w + ",", m);
  }

  /** The four space-separated fields of a date line. */
  lemma SplitDate(w: string, m: string, d: string, y: string)
    requires ' ' !in w && ' ' !in m && ' ' !in d && ' ' !in y
    ensures Split(w + ", " + m + " " + d + " " + y) == [w + ",", m, d, y]
  {
    SplitWeekdayMonth(w, m);
    SplitJoin(w + ", " + m, d);
    SplitJoin(w + ", " + m + " " + d, y);
  }

  /** Parsing the four fields of a date line. */
  lemma ParseDateFields(s: string, wday: nat, mon: nat, mday: int, year: int)
    requires wday < |WeekdayNames| && mon < |MonthNames|
    requires Split(s) == [WeekdayNames[wday] + ",", MonthNames[mon], Dec(mday), Dec(year + 1900)]
    ensures ParseDate(s) == Some((wday, mon, mday, year))
  {
    var first := WeekdayNames[wday] + ",";
    assert first[..|first| - 1] == WeekdayNames[wday];
    NamesFound(wday, mon);
    DecRoundTrip(mday);
    DecRoundTrip(year + 1900);
  }

  /** For valid `struct tm` fields the date line gives back exactly the
      weekday, month, day of month and year it was built from. */
  lemma DateTextRoundTrip(wday: int, mon: int, mday: int, year: int)
    requires 0 <= wday < 7 && 0 <= mon < 12
    ensures ParseDate(DateText(wday, mon, mday, year)) == Some((wday, mon, mday, year))
  {
    var w, m := WeekdayNames[wday], MonthNames[mon];
    assert WeekdayName(ToU8(wday)) == w && MonthName(ToU8(mon + 1)) == m;
    NamesHaveNoSpace();
    DecHasNoSpace(mday);
    DecHasNoSpace(year + 1900);
    SplitDate(w, m, Dec(mday), Dec(year + 1900));
    ParseDateFields(DateText(wday, mon, mday, year), wday, mon, mday, year);
  }

  /** A date with a one- or two-digit day and a four-digit year takes at most
      28 characters, three more than the 25-character sample the date window
      is measured from. */
  lemma DateTextLength(wday: int, mon: int, mday: int, year: int)
    requires 0 <= wday < 7 && 0 <= mon < 12
    requires 1 <= mday <= 31 && 0 <= year + 1900 <= 9999
    ensures |DateText(wday, mon, mday, year)| <= 28
  {
    NameLengths();
    NatDigitsLength(mday, 2);
    NatDigitsLength(year + 1900, 4);
    assert |DateText(wday, mon, mday, year)|
        == |WeekdayNames[wday]| + 2 + |MonthNames[mon]| + 1 + |Dec(mday)| + 1 + |Dec(year + 1900)|;
  }

  /** The 28 characters are reached: "Wednesday, September 30 2026". */
  lemma DateTextLongest()
    ensures |DateText(3, 8, 30, 126)| == 28 > |DateSample| == 25
  {
    assert NatDigits(30) == "30" && NatDigits(2026) == "2026";
  }

  /** The date sample is the date line of the fields Tuesday, February, 15,
      2026. It has the form of a date line, but no real day produces it:
      15 February 2026 is a Sunday. */
  lemma DateSampleIsADate()
    ensures DateText(2, 1, 15, 126) == DateSample
  {
    SampleNumbers();
    assert WeekdayName(2) == "Tuesday" && MonthName(2) == "February";
  }

  /** The day and year of the date sample in decimal. */
  lemma SampleNumbers()
    ensures Dec(15) == "15" && Dec(2026) == "2026"
  {
    assert NatDigits(1) == "1";
    assert NatDigits(20) == "20" && NatDigits(202) == "202";
  }
}
